=== FILE: README.md ===
# linecache — a Dafny model of `AsyncLineCache`

This project models the core of the Rust crate `linecache`. That core is
`AsyncLineCache` in `src/lib.rs`, an asynchronous cache of text files. It
keeps three caches keyed by path:

- the file split into lines;
- the verbatim file content;
- a freshness fingerprint, which is the modification time plus the size.

Every public read first checks the fingerprint against the filesystem. When
the file changed, the read drops all three entries for that path and then
serves the data from the cache or loads the file.

The model is a state machine of pure functions. Each operation takes:

- the three caches (a `Cache` of three maps);
- a snapshot of the filesystem (`Fs`, a map from path to what `metadata`,
  `open` and `read_to_string` report);
- where the source draws a random number, the draw as an argument;
- an optional `Eviction`, which is the cache library dropping one entry at
  the single point inside a read where that changes the read's outcome:
  right after the freshness check.

Each operation returns a `Reply` that pairs the result with the next state.

Files:

- `outcomes.dfy` holds `Option`, `IoError`, `IoResult` and the integer
  limits (`u32::MAX`, `u64::MAX`, `usize::MAX`, `isize::MAX`).
- `filesystem.dfy` holds the filesystem snapshot and `StatOf`, which is
  `metadata` followed by `modified`.
- `line_split.dfy` holds the line splitter. It is Rust's `str::lines`
  followed by the rule that non-empty text ending in a line feed gets one
  more, empty line. It also holds a reference split on '\n' and the
  round-trip lemmas.
- `weights.dfy` holds the two weigher closures, the 1 GiB memory floor and
  the halving of the budget between the two weighed caches.
- `line_cache.dfy` holds the operations: `is_file_modified`,
  `load_file_into_cache`, `load_or_get_lines`, `get_line`, `get_lines`,
  `get_content`, `random_line`, `random_sign_char`, `random_sign`,
  `invalidate` and `clear`.
- `line_cache_facts.dfy` holds properties that span several calls. The main
  one is coherence: under a matching fingerprint, every cached entry is what
  a read from scratch would return, and coherent caches are invisible to
  the caller.

Three behaviours of the code are modelled as written and exposed by lemmas:

- `get_content` stores text only in the content cache and never records a
  fingerprint. A missing fingerprint counts as "modified", so the cached
  content is served only after a lines read has recorded a fingerprint for
  the path. Until then every `get_content` reads the file again
  (`ContentAloneIsNeverServed`, `RepeatedGetContentRereads`).
- Once a lines read has recorded a fingerprint, a later `get_content` caches
  the text. That text is then served even if the file changes while keeping
  the same modification time and size (`ContentServedAfterLinesLoad`).
- `load_file_into_cache` inserts the lines (src/lib.rs:280) before it calls
  `meta.modified()?` (src/lib.rs:281). If that call fails, the load returns
  an error but leaves the lines cached with no fingerprint
  (`MtimeFailureLeavesLinesUnfingerprinted`). Through the public reads on an
  unchanging filesystem this state cannot be reached, because the freshness
  check calls `modified()` first and fails first: such a read leaves the
  caches as they were apart from the eviction (`FetchLines`), and a read
  that succeeds leaves lines only with a fingerprint
  (`ReadsLeaveLinesFingerprinted`).

For text without carriage returns, rejoining the stored lines with '\n'
gives back the text exactly: the extra empty line restores the final line
feed (`SplitLinesRoundTrip`). A "\r\n" terminator loses its '\r'.

The test `test_get_lines` (tests/linecache_tests.rs:67) expects no trailing
empty line for a file that ends in '\n'. That contradicts the splitter in
`src/lib.rs`, so the model follows `src/lib.rs` (`ExampleThreeLines`,
`ExampleTerminated`).

## Model

| member | source | states |
|---|---|---|
| LineSplit.StrLines | src/lib.rs:267 | `str::lines` yields at least one line exactly when the text is non-empty |
| LineSplit.SplitLines | src/lib.rs:267-275 | the stored vector is empty exactly when the file is empty |
| LineSplit.StrLinesOpenEnded | src/lib.rs:267 | for text not ending in '\n', `str::lines` gives as many lines as cutting at every '\n', with the same last line and the '\r' of each "\r\n" removed |
| LineSplit.StrLinesClosed | src/lib.rs:267 | for text ending in '\n', `str::lines` gives every cut piece except the final empty one, with the '\r' of each "\r\n" removed |
| LineSplit.SplitLinesIsSplitOn | src/lib.rs:267-275 | with the extra empty line, non-empty text yields exactly the pieces cut at every '\n', where each piece before the last loses the '\r' of a "\r\n" terminator |
| LineSplit.SplitLinesCount | src/lib.rs:267-275 | non-empty text yields one more line than it has line feeds |
| LineSplit.SplitLinesHaveNoNewline | src/lib.rs:267-275 | no stored line contains a line feed |
| LineSplit.SplitLinesWithoutCr | src/lib.rs:267-275 | for non-empty text with no carriage return, the stored lines are exactly the pieces between line feeds, including a final empty one |
| LineSplit.SplitLinesRoundTrip | src/lib.rs:267-275 | joining the lines of carriage-return-free text with '\n' reproduces the text, final line feed included |
| LineSplit.JoinRoundTrip | src/lib.rs:267-275 | splitting the non-empty join of lines that contain no terminator gives back exactly those lines |
| LineSplit.SplitLinesBound | src/lib.rs:267-275 | a text of n characters yields at most n + 1 lines |
| LineSplit.ExampleEmpty | src/lib.rs:273 | the empty text yields no lines, not one empty line |
| LineSplit.ExampleLoneNewline | src/lib.rs:267-275 | "\n" yields two empty lines |
| LineSplit.ExampleTerminated | src/lib.rs:273-275 | "hello\n" yields "hello" and a final empty line |
| LineSplit.ExampleUnterminated | src/lib.rs:267 | "hello" yields the single line "hello" |
| LineSplit.ExampleThreeLines | src/lib.rs:267-275 | "a\nb\nc\n" yields "a", "b", "c" and a final empty line |
| LineSplit.ExampleCrLf | src/lib.rs:267 | a "\r\n" terminator is removed whole: "a\r\nb" yields "a" and "b" |
| Weights.Saturate | src/lib.rs:88-89 | the clamp to `u32::MAX` never exceeds its input and changes it only when the input exceeds the clamp |
| Weights.LinesWeight | src/lib.rs:84-90 | a lines entry weighs at least the 128-byte overhead and at most `u32::MAX` |
| Weights.ContentWeight | src/lib.rs:94-96 | a content entry weighs at least the 128-byte overhead and at most `u32::MAX` |
| Weights.LinesWeightMonotone | src/lib.rs:84-90 | growing the vector capacity or any line's capacity never lowers the weight |
| Weights.LinesWeightGrowsWithLines | src/lib.rs:84-90 | one more line never lowers the weight |
| Weights.LinesWeightChargesEveryByte | src/lib.rs:84-90 | below the clamp, every byte of line capacity adds exactly one unit of weight |
| Weights.ContentWeightMonotone | src/lib.rs:94-96 | more content capacity never lowers the weight |
| Weights.ContentWeightSaturation | src/lib.rs:94-96 | the content weight saturates exactly when capacity plus 128 reaches `u32::MAX`, and empty content weighs 128 |
| Weights.TotalMemory | src/lib.rs:34-37 | the assumed total memory is the probed value, except that it is raised to 1 GiB when the probe reports less |
| Weights.PerCacheLimit | src/lib.rs:80 | each weighed cache gets half the total limit, rounded down |
| FileSystem.StatOf | src/lib.rs:289-292 | a path is missing exactly when absent from the filesystem; there is a fingerprint exactly when both `metadata` and `modified` succeed, and it is the pair of `modified`'s time and the metadata length; otherwise the error is `metadata`'s, or failing that `modified`'s |
| LineCache.Invalidate | src/lib.rs:216-221 | all three entries of the path are gone and every other path is untouched |
| LineCache.Clear | src/lib.rs:225-229 | every path has no entry in any of the three caches |
| LineCache.IsFileModified | src/lib.rs:288-305 | a vanished file is invalidated and reported modified; a metadata or `modified` error propagates with the caches unchanged; otherwise the result is true exactly when the cached fingerprint is absent or differs |
| LineCache.Revalidate | src/lib.rs:127-129 | the prologue fails exactly on a metadata or `modified` error; a fresh path is left alone; otherwise the path's entries are dropped and no other path changes |
| LineCache.LoadFileIntoCache | src/lib.rs:252-284 | a vanished file yields no lines and is invalidated; an open, metadata or read error stores nothing; a successful read stores the split lines, and stores the fingerprint only if `modified` succeeds; contents are never written; other paths are untouched |
| LineCache.LoadOrGetLines | src/lib.rs:242-248 | a cached vector is returned with no change to the caches; on a miss the result is what a read from scratch yields, unless `metadata` or `modified` fails, and a successful load of an existing file stores the lines with the file's fingerprint and leaves the content cache alone; other paths are untouched |
| LineCache.FetchLines | src/lib.rs:127-130 | a hit returns the cached vector; a miss returns exactly a read from scratch and stores lines with fingerprint; a failure stores nothing, and after a failed load of a stale path that path has no entries left; a fresh path, or one whose `metadata` or `modified` fails, keeps its content, and an error there leaves the caches as they were apart from the eviction; content is never stored; other paths are untouched |
| LineCache.GetLine | src/lib.rs:126-132 | the result is line `lineno` counted from 1, absent exactly when `lineno` is past the last line; line 0 wraps to index `usize::MAX`; errors propagate |
| LineCache.GetLines | src/lib.rs:173-183 | the whole fetched vector, reported absent exactly when it is empty; errors propagate |
| LineCache.Choose | src/lib.rs:144 | a choice is absent exactly for an empty sequence, always an element of it, and every element is chosen by some draw |
| LineCache.RandomLine | src/lib.rs:136-152 | the result is absent exactly when the fetched vector is empty, and otherwise is one of its lines; the caches end as after a fetch |
| LineCache.RandomSignChar | src/lib.rs:156-160 | the result is absent exactly when there is no line or the chosen line is empty, and otherwise is a character of the chosen line |
| LineCache.RandomSign | src/lib.rs:164-166 | the result is the chosen character as a one-character string |
| LineCache.GetContent | src/lib.rs:190-212 | a hit returns the cached text; a miss returns exactly a read from scratch and stores it in the content cache only; a vanished file is invalidated; lines and fingerprints are never written, and a stale path loses its lines and fingerprint (all its entries when the read fails); a fresh path, or one whose `metadata` or `modified` fails, keeps its lines and fingerprint, and an error there leaves the caches as they were apart from the eviction |
| LineCacheFacts.EmptyIsCoherent | src/lib.rs:98-112 | a new cache is coherent with any filesystem |
| LineCacheFacts.EvictKeepsCoherent | src/lib.rs:101-108 | dropping an entry keeps the caches coherent |
| LineCacheFacts.InvalidateKeepsCoherent | src/lib.rs:216-221 | `invalidate` keeps the caches coherent |
| LineCacheFacts.FetchLinesKeepsCoherent | src/lib.rs:127-130 | every lines read keeps the caches coherent with an unchanged filesystem |
| LineCacheFacts.GetContentKeepsCoherent | src/lib.rs:190-212 | every content read keeps the caches coherent with an unchanged filesystem |
| LineCacheFacts.CoherentCacheIsTransparent | src/lib.rs:288-305 | with coherent caches, lines and content reads return what a read from scratch returns, whatever is evicted |
| LineCacheFacts.NoticedChangeKeepsCoherent | src/lib.rs:294-295 | a filesystem change that leaves every matching fingerprint's file readable as before keeps the caches coherent |
| LineCacheFacts.LoadedFileIsFresh | src/lib.rs:277-283 | after a successful load the file is fresh and the next lines read is a pure hit |
| LineCacheFacts.FetchLinesIdempotent | src/lib.rs:126-130 | reading an unchanged file's lines twice gives the same answer and leaves the same caches |
| LineCacheFacts.RewrittenFileIsReread | src/lib.rs:294-295 | after a successful read, a file whose modification time or size changed is read from scratch on the next read, whatever either read evicts |
| LineCacheFacts.InvalidateForcesColdRead | src/lib.rs:216-221 | after `invalidate`, lines and content reads of the path are reads from scratch |
| LineCacheFacts.InvalidateSparesOtherPaths | src/lib.rs:216-221 | `invalidate` on one path does not change any read of another path |
| LineCacheFacts.ClearForcesColdReads | src/lib.rs:225-229 | after `clear` every read of every path is a read from scratch |
| LineCacheFacts.ContentAloneIsNeverServed | src/lib.rs:190-212 | without a fingerprint, `get_content` reads the file and records no fingerprint |
| LineCacheFacts.RepeatedGetContentRereads | src/lib.rs:197-204 | two `get_content` calls in a row both read the file, although the first stored the text |
| LineCacheFacts.ContentServedAfterLinesLoad | src/lib.rs:197-199 | after a lines read, cached content is served even when the text changed under the same time and size |
| LineCacheFacts.MtimeFailureLeavesLinesUnfingerprinted | src/lib.rs:280-281 | a failing `modified` during a load returns the error but leaves the lines cached with no fingerprint |
| LineCacheFacts.ReadsLeaveLinesFingerprinted | src/lib.rs:280-281 | a successful lines read with no eviction leaves lines cached only together with a fingerprint |
| LineCacheFacts.GetLineOutOfRange | src/lib.rs:131 | when cached vectors and file texts fit their Rust types, line number 0 wraps past every line and, like any number past the last line, finds no line |
| LineCacheFacts.ColdGetLine | src/lib.rs:126-132 | whenever the cached fingerprint does not match, `get_line` on a readable file returns the requested line of the file's split text, for any other cache contents and any eviction |
| LineCacheFacts.RandomLineChoosesFromFetched | src/lib.rs:140-151 | the hit branch of `random_line` chooses from the same vector as the load branch |
| LineCacheFacts.RandomLineReachesEveryLine | src/lib.rs:144-150 | every line of the file is returned by `random_line` for some draw |
| LineCacheFacts.RandomSignCharReachesEveryChar | src/lib.rs:157-159 | every character of every line is returned by `random_sign_char` for some draws |
| LineCacheFacts.RandomSignCharFromFile | src/lib.rs:156-160 | every character `random_sign_char` returns occurs in some line of the file |

## Left out

- The cache library's admission and eviction policy, its weighted byte
  budget and the 8192-entry capacity of the fingerprint cache
  (src/lib.rs:101-111): eviction is modelled only as "an entry may
  disappear", through the `Eviction` argument of each read. Evictions
  between operations are covered because every property holds for every
  starting state.
- The 85% budget computation in floating point (src/lib.rs:77): the model
  takes the resulting limit as a number.
- Probing physical memory and the once-only global (src/lib.rs:34-35): the
  probed value is a parameter of `Weights.TotalMemory`.
- Asynchronous execution, buffered reading, the byte-level UTF-8 check and
  the capacity hint of the read buffer: a read is modelled as yielding the
  whole text or an error.
- Concurrency: interleaved operations and changes to the filesystem during
  an operation are not modelled. Each operation sees one snapshot.
- The random number generator: each draw is an argument, and
  `LineCache.Choose` picks element `pick % |xs|`, so every draw is valid and
  every element is reachable.
- The deprecated `clear_cache` (src/lib.rs:234-236), which only calls
  `clear`.
- `Arc` sharing and `clone`: a line vector is a value.
- Integer widths: `usize` is 64 bits wide. Lengths are unbounded in Dafny,
  so the facts that every real `Vec` and `String` fits its Rust type are the
  predicates `Valid` and `ValidFs`, assumed only where a lemma needs them.
- Weights: the capacities of `Vec` and `String` buffers and the size of a
  `String` header are platform facts, so they are parameters rather than
  computed from the text. The lines weigher multiplies and adds in `usize`
  (src/lib.rs:85-88), while the model uses unbounded numbers; real buffer
  capacities are far too small to reach the wrap-around, so no reachable
  behaviour is lost.
- Character-level `chars()` works on Unicode scalar values. A Dafny `char`
  stands for one such value.

=== FILE: filesystem.dfy ===
/** The filesystem the cache reads, frozen for the duration of one cache
    operation. A path missing from the map is one the operating system
    reports as "not found"; every other failure is an `IoError`. */
module FileSystem {
  import opened Outcomes

  type Path = string

  /** A modification time; only equality between two of them matters. */
  type Timestamp = int

  /** The freshness fingerprint: modification time and size in bytes. */
  datatype Fingerprint = Fingerprint(mtime: Timestamp, size: nat)

  /** What `metadata` reports for an existing path. `modified` may itself
      fail (on platforms that keep no modification time). */
  datatype Metadata = Metadata(modified: IoResult<Timestamp>, len: nat)

  /** One existing path: what asking for its metadata yields, the error
      opening it reports if opening fails (permission denied, say), and
      what reading all of it as text yields (invalid UTF-8 or a device
      error fail the read). */
  datatype Node = Node(metadata: IoResult<Metadata>, openFailure: Option<IoError>, body: IoResult<string>)

  type Fs = map<Path, Node>

  /** What a freshness check learns about a path. */
  datatype Stat = Missing | Unstattable(error: IoError) | Stamped(fp: Fingerprint)

  /** `metadata(path)` followed by `modified()`: the fingerprint when
      both succeed, otherwise the first error met. */
  function StatOf(fs: Fs, p: Path): (s: Stat)
    ensures s.Missing? <==> p !in fs
    ensures s.Stamped? <==> p in fs && fs[p].metadata.Ok? && fs[p].metadata.value.modified.Ok?
    ensures s.Stamped? ==>
              s.fp == Fingerprint(fs[p].metadata.value.modified.value, fs[p].metadata.value.len)
    ensures s.Unstattable? && fs[p].metadata.Err? ==> s.error == fs[p].metadata.error
    ensures s.Unstattable? && fs[p].metadata.Ok? ==> s.error == fs[p].metadata.value.modified.error
  {
    if p !in fs then Missing
    else match fs[p].metadata
      case Err(e) => Unstattable(e)
      case Ok(m) =>
        match m.modified
        case Err(e) => Unstattable(e)
        case Ok(t) => Stamped(Fingerprint(t, m.len))
  }

  /** Every readable text fits in a Rust `String`. */
  predicate ValidFs(fs: Fs) {
    forall p :: p in fs && fs[p].body.Ok? ==> |fs[p].body.value| <= ISIZE_MAX
  }
}

=== FILE: line_cache.dfy ===
/** `AsyncLineCache` as a state machine. The state is the three caches
    keyed by path (parsed lines, verbatim content, freshness fingerprint);
    every operation is a pure function of the state and the filesystem that
    returns the operation's result together with the next state.

    The library behind the caches may evict any entry at any moment. That
    is modelled by an optional `Eviction` fired right after the freshness
    check of a read: it is the one point inside an operation where an
    eviction changes what the operation does. Evictions before or after an
    operation are covered by every property holding for every state. */
module LineCache {
  import opened Outcomes
  import opened FileSystem
  import LineSplit

  /** A Rust `usize` on a 64-bit target. */
  type Usize = n: nat | n <= USIZE_MAX

  /** Everything the three caches hold for one path. */
  datatype Slot = Slot(lines: Option<seq<string>>, content: Option<string>, fingerprint: Option<Fingerprint>)
  {
    /** Each entry of this slot is absent or the same as in `other`:
        nothing was added or replaced, at most removed. */
    predicate Within(other: Slot) {
      && (lines.None? || lines == other.lines)
      && (content.None? || content == other.content)
      && (fingerprint.None? || fingerprint == other.fingerprint)
    }
  }

  const Vacant: Slot := Slot(None, None, None)

  datatype Cache = Cache(lines: map<Path, seq<string>>, contents: map<Path, string>, metadata: map<Path, Fingerprint>)
  {
    function At(p: Path): Slot {
      Slot(if p in lines then Some(lines[p]) else None,
           if p in contents then Some(contents[p]) else None,
           if p in metadata then Some(metadata[p]) else None)
    }
  }

  const Empty: Cache := Cache(map[], map[], map[])

  /** `a` and `b` agree on every path other than `p`. */
  ghost predicate SameElsewhere(a: Cache, b: Cache, p: Path) {
    forall q :: q != p ==> a.At(q) == b.At(q)
  }

  /** Every cached line vector fits in a Rust `Vec`. */
  predicate Valid(c: Cache) {
    forall p :: p in c.lines ==> |c.lines[p]| <= USIZE_MAX
  }

  /** An operation's result and the caches it leaves behind. */
  datatype Reply<+T> = Reply(result: IoResult<T>, next: Cache)

  // ---------------------------------------------------------------------
  // Eviction by the cache library

  /** The three underlying caches. */
  datatype Store = LinesStore | ContentsStore | MetadataStore

  /** The library dropping the entry for `key` from `store`. */
  datatype Eviction = Eviction(store: Store, key: Path)

  function Evict(c: Cache, e: Eviction): (r: Cache)
    ensures r.At(e.key).Within(c.At(e.key))
    ensures e.store == LinesStore ==> e.key !in r.lines
    ensures e.store == ContentsStore ==> e.key !in r.contents
    ensures e.store == MetadataStore ==> e.key !in r.metadata
    ensures e.store != LinesStore ==> r.At(e.key).lines == c.At(e.key).lines
    ensures e.store != ContentsStore ==> r.At(e.key).content == c.At(e.key).content
    ensures e.store != MetadataStore ==> r.At(e.key).fingerprint == c.At(e.key).fingerprint
    ensures SameElsewhere(r, c, e.key)
  {
    match e.store
    case LinesStore => c.(lines := c.lines - {e.key})
    case ContentsStore => c.(contents := c.contents - {e.key})
    case MetadataStore => c.(metadata := c.metadata - {e.key})
  }

  function MaybeEvict(c: Cache, ev: Option<Eviction>): (r: Cache)
    ensures ev.None? ==> r == c
    ensures forall q :: r.At(q).Within(c.At(q))
  {
    match ev
    case None => c
    case Some(e) => Evict(c, e)
  }

  /** Eviction acts on one path only, so caches that agree away from `p`
      still agree after it. */
  lemma MaybeEvictSameElsewhere(a: Cache, b: Cache, p: Path, ev: Option<Eviction>)
    requires SameElsewhere(a, b, p)
    ensures SameElsewhere(MaybeEvict(a, ev), MaybeEvict(b, ev), p)
  {
    if ev.Some? {
      var e := ev.value;
      forall q | q != p
        ensures MaybeEvict(a, ev).At(q) == MaybeEvict(b, ev).At(q)
      {
        assert a.At(q) == b.At(q);
        if q != e.key {
          assert MaybeEvict(a, ev).At(q) == a.At(q);
          assert MaybeEvict(b, ev).At(q) == b.At(q);
        }
      }
    }
  }

  // ---------------------------------------------------------------------
  // invalidate and clear

  /** Removes `p` from all three caches. */
  function Invalidate(c: Cache, p: Path): (r: Cache)
    ensures r.At(p) == Vacant
    ensures SameElsewhere(r, c, p)
  {
    Cache(c.lines - {p}, c.contents - {p}, c.metadata - {p})
  }

  /** Drops every entry of all three caches. */
  function Clear(c: Cache): (r: Cache)
    ensures forall q :: r.At(q) == Vacant
  {
    Empty
  }

  // ---------------------------------------------------------------------
  // Freshness

  /** The cached fingerprint for `p` matches the file on disk. */
  predicate Fresh(c: Cache, fs: Fs, p: Path) {
    StatOf(fs, p).Stamped? && c.At(p).fingerprint == Some(StatOf(fs, p).fp)
  }

  /** `is_file_modified`: true when no fingerprint is cached or it differs
      from the file's current one in time or size; a vanished file is
      invalidated and reported as modified; other metadata errors
      propagate. */
  function IsFileModified(c: Cache, fs: Fs, p: Path): (r: Reply<bool>)
    ensures StatOf(fs, p).Missing? ==> r.result == Ok(true) && r.next == Invalidate(c, p)
    ensures StatOf(fs, p).Unstattable? ==> r == Reply(Err(StatOf(fs, p).error), c)
    ensures StatOf(fs, p).Stamped? ==>
              r.next == c && r.result == Ok(c.At(p).fingerprint != Some(StatOf(fs, p).fp))
  {
    if p !in fs then Reply(Ok(true), Invalidate(c, p))
    else match fs[p].metadata
      case Err(e) => Reply(Err(e), c)
      case Ok(m) =>
        match m.modified
        case Err(e) => Reply(Err(e), c)
        case Ok(mtime) =>
          if p in c.metadata then
            Reply(Ok(mtime != c.metadata[p].mtime || m.len != c.metadata[p].size), c)
          else
            Reply(Ok(true), c)
  }

  /** The prologue of every public read: when the freshness check says the
      file changed, invalidate it. The result says whether it did. */
  function Revalidate(c: Cache, fs: Fs, p: Path): (r: Reply<bool>)
    ensures r.result.Err? <==> StatOf(fs, p).Unstattable?
    ensures r.result.Err? ==> r == Reply(Err(StatOf(fs, p).error), c)
    ensures Fresh(c, fs, p) ==> r == Reply(Ok(false), c)
    ensures r.result.Ok? && !Fresh(c, fs, p) ==>
              r.result.value && r.next.At(p) == Vacant && SameElsewhere(r.next, c, p)
  {
    var m := IsFileModified(c, fs, p);
    match m.result
    case Err(e) => Reply(Err(e), m.next)
    case Ok(modified) =>
      if modified then Reply(Ok(true), Invalidate(m.next, p)) else Reply(Ok(false), m.next)
  }

  // ---------------------------------------------------------------------
  // Loading lines

  /** Every error `n` can report. */
  function NodeErrors(n: Node): set<IoError> {
    (if n.openFailure.Some? then {n.openFailure.value} else {})
    + (if n.metadata.Err? then {n.metadata.error} else {})
    + (if n.metadata.Ok? && n.metadata.value.modified.Err? then {n.metadata.value.modified.error} else {})
    + (if n.body.Err? then {n.body.error} else {})
  }

  /** `load_file_into_cache`: open, read metadata, read the text, split
      it, store the lines, then store the fingerprint. A vanished file is
      invalidated and yields no lines. Failures before the lines are stored
      leave the caches alone; a failing `modified()` comes after the lines
      are stored, so it leaves them cached without a fingerprint. */
  function LoadFileIntoCache(c: Cache, fs: Fs, p: Path): (r: Reply<seq<string>>)
    ensures p !in fs ==> r == Reply(Ok([]), Invalidate(c, p))
    ensures p in fs && fs[p].openFailure.Some? ==> r == Reply(Err(fs[p].openFailure.value), c)
    ensures p in fs && (fs[p].metadata.Err? || fs[p].body.Err?) ==> r.result.Err? && r.next == c
    ensures p in fs && r.result.Err? ==> r.result.error in NodeErrors(fs[p])
    ensures p in fs && fs[p].openFailure.None? && fs[p].metadata.Ok? && fs[p].body.Ok? ==>
              var lines := LineSplit.SplitLines(fs[p].body.value);
              var m := fs[p].metadata.value;
              && r.next.lines == c.lines[p := lines]
              && r.next.contents == c.contents
              && (m.modified.Ok? ==>
                    r.result == Ok(lines) && r.next.metadata == c.metadata[p := Fingerprint(m.modified.value, m.len)])
              && (m.modified.Err? ==>
                    r.result == Err(m.modified.error) && r.next.metadata == c.metadata)
    ensures SameElsewhere(r.next, c, p)
    ensures Valid(c) && ValidFs(fs) ==> Valid(r.next)
  {
    if p !in fs then Reply(Ok([]), Invalidate(c, p))
    else
      var n := fs[p];
      if n.openFailure.Some? then Reply(Err(n.openFailure.value), c)
      else match n.metadata
        case Err(e) => Reply(Err(e), c)
        case Ok(m) =>
          match n.body
          case Err(e) => Reply(Err(e), c)
          case Ok(text) =>
            var lines := LineSplit.SplitLines(text);
            LineSplit.SplitLinesBound(text);
            var stored := c.(lines := c.lines[p := lines]);
            match m.modified
            case Err(e) => Reply(Err(e), stored)
            case Ok(mtime) => Reply(Ok(lines), stored.(metadata := stored.metadata[p := Fingerprint(mtime, m.len)]))
  }

  /** `load_or_get_lines`: a cached vector is returned as it is, with no
      change to the caches; otherwise the file is loaded, which yields what
      a read from scratch yields (unless the file's metadata cannot be
      read) and stores the lines with their fingerprint. */
  function LoadOrGetLines(c: Cache, fs: Fs, p: Path): (r: Reply<seq<string>>)
    ensures p in c.lines ==> r == Reply(Ok(c.lines[p]), c)
    ensures p !in c.lines && !StatOf(fs, p).Unstattable? ==> r.result == ColdLines(fs, p)
    ensures p !in c.lines && r.result.Ok? && StatOf(fs, p).Stamped? ==>
              && r.next.At(p).lines == Some(r.result.value)
              && r.next.At(p).fingerprint == Some(StatOf(fs, p).fp)
              && r.next.contents == c.contents
    ensures SameElsewhere(r.next, c, p)
  {
    if p in c.lines then Reply(Ok(c.lines[p]), c) else LoadFileIntoCache(c, fs, p)
  }

  // ---------------------------------------------------------------------
  // Reference behaviour: what a read returns when nothing is cached

  /** The lines a read of `p` yields from scratch: none for a missing
      file, the first error met otherwise (metadata, modification time,
      opening, reading, in that order), or the split text. */
  function ColdLines(fs: Fs, p: Path): IoResult<seq<string>> {
    match StatOf(fs, p)
    case Missing => Ok([])
    case Unstattable(e) => Err(e)
    case Stamped(_) =>
      if fs[p].openFailure.Some? then Err(fs[p].openFailure.value)
      else if fs[p].body.Err? then Err(fs[p].body.error)
      else Ok(LineSplit.SplitLines(fs[p].body.value))
  }

  /** The content a read of `p` yields from scratch: absent for a missing
      file, the first error met otherwise, or the verbatim text. */
  function ColdContent(fs: Fs, p: Path): IoResult<Option<string>> {
    match StatOf(fs, p)
    case Missing => Ok(None)
    case Unstattable(e) => Err(e)
    case Stamped(_) =>
      if fs[p].openFailure.Some? then Err(fs[p].openFailure.value)
      else if fs[p].body.Err? then Err(fs[p].body.error)
      else Ok(Some(fs[p].body.value))
  }

  lemma ColdLinesBounded(fs: Fs, p: Path)
    ensures ValidFs(fs) && ColdLines(fs, p).Ok? ==> |ColdLines(fs, p).value| <= USIZE_MAX
  {
    if ValidFs(fs) && StatOf(fs, p).Stamped? && fs[p].body.Ok? {
      LineSplit.SplitLinesBound(fs[p].body.value);
    }
  }

  /** A read of lines is served from the cache exactly when the
      fingerprint matches and the lines entry survived any eviction. */
  predicate LinesHit(c: Cache, fs: Fs, p: Path, ev: Option<Eviction>) {
    Fresh(c, fs, p) && p in MaybeEvict(c, ev).lines
  }

  /** Likewise for a read of content. */
  predicate ContentHit(c: Cache, fs: Fs, p: Path, ev: Option<Eviction>) {
    Fresh(c, fs, p) && p in MaybeEvict(c, ev).contents
  }

  // ---------------------------------------------------------------------
  // Public reads

  /** The part shared by `get_line`, `get_lines` and (through
      `random_line`) the random reads: revalidate, then fetch or load the
      line vector. On a hit the cached vector is returned untouched; on a
      miss the result is exactly that of a read from scratch, and a loaded
      vector is stored together with its fingerprint. No read of lines
      ever stores content, a failing read stores nothing, and no other
      path is affected. */
  function FetchLines(c: Cache, fs: Fs, p: Path, ev: Option<Eviction>): (r: Reply<seq<string>>)
    ensures LinesHit(c, fs, p, ev) ==> r == Reply(Ok(c.lines[p]), MaybeEvict(c, ev))
    ensures !LinesHit(c, fs, p, ev) ==> r.result == ColdLines(fs, p)
    ensures !LinesHit(c, fs, p, ev) && r.result.Ok? && StatOf(fs, p).Stamped? ==>
              && r.next.At(p).lines == Some(r.result.value)
              && r.next.At(p).fingerprint == Some(StatOf(fs, p).fp)
    ensures StatOf(fs, p).Missing? ==> r.next.At(p) == Vacant
    ensures r.result.Err? ==> r.next.At(p).Within(c.At(p))
    ensures !Fresh(c, fs, p) && StatOf(fs, p).Stamped? && r.result.Err? ==> r.next.At(p) == Vacant
    ensures Fresh(c, fs, p) || StatOf(fs, p).Unstattable? ==>
              r.next.At(p).content == MaybeEvict(c, ev).At(p).content
    ensures r.result.Err? && (Fresh(c, fs, p) || StatOf(fs, p).Unstattable?) ==> r.next == MaybeEvict(c, ev)
    ensures r.next.At(p).content.Some? ==> r.next.At(p).content == c.At(p).content
    ensures r.result.Ok? && r.next.At(p).content.Some? ==> Fresh(c, fs, p)
    ensures SameElsewhere(r.next, MaybeEvict(c, ev), p)
    ensures Valid(c) && ValidFs(fs) && r.result.Ok? ==> |r.result.value| <= USIZE_MAX
  {
    var v := Revalidate(c, fs, p);
    if v.result.Err? then Reply(Err(v.result.error), MaybeEvict(v.next, ev))
    else
      MaybeEvictSameElsewhere(v.next, c, p, ev);
      ColdLinesBounded(fs, p);
      FetchLinesMiss(c, fs, p, ev);
      LoadOrGetLines(MaybeEvict(v.next, ev), fs, p)
  }

  /** The miss path of a lines read, once the freshness check passed: the
      load yields what a read from scratch yields, stores the lines with
      the file's fingerprint on success and nothing on failure. */
  lemma FetchLinesMiss(c: Cache, fs: Fs, p: Path, ev: Option<Eviction>)
    requires Revalidate(c, fs, p).result.Ok?
    ensures var cached := MaybeEvict(Revalidate(c, fs, p).next, ev);
            var r := LoadFileIntoCache(cached, fs, p);
            p !in cached.lines ==>
            && r.result == ColdLines(fs, p)
            && (r.result.Ok? && StatOf(fs, p).Stamped? ==>
                  && r.next.At(p).lines == Some(r.result.value)
                  && r.next.At(p).fingerprint == Some(StatOf(fs, p).fp))
            && (r.result.Err? ==> r.next.At(p).Within(c.At(p)))
            && (r.next.At(p).content.Some? ==> r.next.At(p).content == c.At(p).content && Fresh(c, fs, p))
  {
    var v := Revalidate(c, fs, p);
    var cached := MaybeEvict(v.next, ev);
    if p in cached.lines {
      return;
    }
    assert cached.At(p).Within(c.At(p)) by {
      assert cached.At(p).Within(v.next.At(p));
      if Fresh(c, fs, p) {
        assert v.next == c;
      } else {
        assert v.next.At(p) == Vacant;
      }
    }
    assert cached.At(p).content.Some? ==> Fresh(c, fs, p);
    var r := LoadFileIntoCache(cached, fs, p);
    match StatOf(fs, p)
    case Missing =>
    case Unstattable(_) =>
    case Stamped(fp) =>
      var n := fs[p];
      if n.openFailure.None? && n.body.Ok? {
        assert r.next.lines == cached.lines[p := LineSplit.SplitLines(n.body.value)];
        assert r.next.metadata == cached.metadata[p := fp];
        assert r.next.contents == cached.contents;
      }
  }

  /** `Vec::get`. */
  function LineAt(lines: seq<string>, i: Usize): Option<string> {
    if i < |lines| then Some(lines[i]) else None
  }

  /** `usize::wrapping_sub(1)`: 0 wraps to the largest `usize`. */
  function WrappingPred(n: Usize): Usize {
    if n == 0 then USIZE_MAX else n - 1
  }

  /** `get_line`: the 1-based line `lineno` of the fetched vector, absent
      when `lineno` is past the last line. Line number 0 wraps to the
      largest `usize`, which no vector that fits in memory reaches. */
  function GetLine(c: Cache, fs: Fs, p: Path, lineno: Usize, ev: Option<Eviction>): (r: Reply<Option<string>>)
    ensures var f := FetchLines(c, fs, p, ev);
            && r.next == f.next
            && (f.result.Err? ==> r.result == Err(f.result.error))
            && (f.result.Ok? ==>
                  var lines := f.result.value;
                  && r.result.Ok?
                  && (r.result.value.Some? <==> 1 <= lineno <= |lines| || (lineno == 0 && USIZE_MAX < |lines|))
                  && (r.result.value.Some? && lineno > 0 ==> r.result.value.value == lines[lineno - 1])
                  && (r.result.value.Some? && lineno == 0 ==> r.result.value.value == lines[USIZE_MAX]))
  {
    var f := FetchLines(c, fs, p, ev);
    match f.result
    case Err(e) => Reply(Err(e), f.next)
    case Ok(lines) => Reply(Ok(LineAt(lines, WrappingPred(lineno))), f.next)
  }

  /** `get_lines`: the whole fetched vector, reported absent when it is
      empty. */
  function GetLines(c: Cache, fs: Fs, p: Path, ev: Option<Eviction>): (r: Reply<Option<seq<string>>>)
    ensures var f := FetchLines(c, fs, p, ev);
            && r.next == f.next
            && (f.result.Err? ==> r.result == Err(f.result.error))
            && (f.result.Ok? ==>
                  && r.result.Ok?
                  && (r.result.value.None? <==> |f.result.value| == 0)
                  && (r.result.value.Some? ==> r.result.value.value == f.result.value))
  {
    var f := FetchLines(c, fs, p, ev);
    match f.result
    case Err(e) => Reply(Err(e), f.next)
    case Ok(lines) => if |lines| == 0 then Reply(Ok(None), f.next) else Reply(Ok(Some(lines)), f.next)
  }

  /** `choose` with the random draw supplied as `pick`: absent for an
      empty sequence, otherwise an element, and every element is the
      choice for some draw. */
  function Choose<T>(xs: seq<T>, pick: nat): (r: Option<T>)
    ensures r.None? <==> |xs| == 0
    ensures r.Some? ==> r.value in xs
    ensures pick < |xs| ==> r == Some(xs[pick])
  {
    if |xs| == 0 then None else Some(xs[pick % |xs|])
  }

  /** `random_line`: revalidate, then choose from the cached vector, or
      load it on a miss and choose from that. */
  function RandomLine(c: Cache, fs: Fs, p: Path, pick: nat, ev: Option<Eviction>): (r: Reply<Option<string>>)
    ensures var f := FetchLines(c, fs, p, ev);
            && r.next == f.next
            && (f.result.Err? ==> r.result == Err(f.result.error))
            && (f.result.Ok? ==>
                  && r.result.Ok?
                  && (r.result.value.None? <==> |f.result.value| == 0)
                  && (r.result.value.Some? ==> r.result.value.value in f.result.value))
  {
    var v := Revalidate(c, fs, p);
    if v.result.Err? then Reply(Err(v.result.error), MaybeEvict(v.next, ev))
    else
      var cached := MaybeEvict(v.next, ev);
      if p in cached.lines then
        var lines := cached.lines[p];
        if |lines| == 0 then Reply(Ok(None), cached) else Reply(Ok(Choose(lines, pick)), cached)
      else
        var loaded := LoadOrGetLines(cached, fs, p);
        match loaded.result
        case Err(e) => Reply(Err(e), loaded.next)
        case Ok(lines) => Reply(Ok(Choose(lines, pick)), loaded.next)
  }

  /** `random_sign_char`: a random line, then a random character of it;
      absent when there is no line or the chosen line is empty. */
  function RandomSignChar(c: Cache, fs: Fs, p: Path, linePick: nat, charPick: nat, ev: Option<Eviction>): (r: Reply<Option<char>>)
    ensures var l := RandomLine(c, fs, p, linePick, ev);
            && r.next == l.next
            && (l.result.Err? ==> r.result == Err(l.result.error))
            && (l.result.Ok? ==>
                  && r.result.Ok?
                  && (r.result.value.None? <==> l.result.value.None? || l.result.value.value == "")
                  && (r.result.value.Some? ==> r.result.value.value in l.result.value.value))
  {
    var l := RandomLine(c, fs, p, linePick, ev);
    match l.result
    case Err(e) => Reply(Err(e), l.next)
    case Ok(None) => Reply(Ok(None), l.next)
    case Ok(Some(line)) => Reply(Ok(Choose(line, charPick)), l.next)
  }

  /** `random_sign`: `random_sign_char` as a one-character string. */
  function RandomSign(c: Cache, fs: Fs, p: Path, linePick: nat, charPick: nat, ev: Option<Eviction>): (r: Reply<Option<string>>)
    ensures var s := RandomSignChar(c, fs, p, linePick, charPick, ev);
            && r.next == s.next
            && (s.result.Err? ==> r.result == Err(s.result.error))
            && (s.result.Ok? ==>
                  && r.result.Ok?
                  && (r.result.value.None? <==> s.result.value.None?)
                  && (r.result.value.Some? ==> |r.result.value.value| == 1
                                               && r.result.value.value[0] == s.result.value.value))
  {
    var s := RandomSignChar(c, fs, p, linePick, charPick, ev);
    match s.result
    case Err(e) => Reply(Err(e), s.next)
    case Ok(None) => Reply(Ok(None), s.next)
    case Ok(Some(ch)) => Reply(Ok(Some([ch])), s.next)
  }

  /** `get_content`: revalidate, then return the cached verbatim text or
      read it. A miss stores the text in the content cache only; the lines
      cache and the fingerprint cache are never written. A vanished file
      is invalidated and reported absent. */
  function GetContent(c: Cache, fs: Fs, p: Path, ev: Option<Eviction>): (r: Reply<Option<string>>)
    ensures ContentHit(c, fs, p, ev) ==> r == Reply(Ok(Some(c.contents[p])), MaybeEvict(c, ev))
    ensures !ContentHit(c, fs, p, ev) ==> r.result == ColdContent(fs, p)
    ensures !ContentHit(c, fs, p, ev) && r.result.Ok? && r.result.value.Some? ==>
              r.next.At(p).content == r.result.value
    ensures StatOf(fs, p).Missing? ==> r.next.At(p) == Vacant
    ensures r.result.Err? ==> r.next.At(p).Within(c.At(p))
    ensures r.next.At(p).lines.Some? ==> r.next.At(p).lines == c.At(p).lines
    ensures r.next.At(p).fingerprint.Some? ==> r.next.At(p).fingerprint == c.At(p).fingerprint
    ensures !Fresh(c, fs, p) && !StatOf(fs, p).Unstattable? ==>
              r.next.At(p).lines.None? && r.next.At(p).fingerprint.None?
    ensures !Fresh(c, fs, p) && StatOf(fs, p).Stamped? && r.result.Err? ==> r.next.At(p) == Vacant
    ensures Fresh(c, fs, p) || StatOf(fs, p).Unstattable? ==>
              && r.next.At(p).lines == MaybeEvict(c, ev).At(p).lines
              && r.next.At(p).fingerprint == MaybeEvict(c, ev).At(p).fingerprint
    ensures r.result.Err? && (Fresh(c, fs, p) || StatOf(fs, p).Unstattable?) ==> r.next == MaybeEvict(c, ev)
    ensures SameElsewhere(r.next, MaybeEvict(c, ev), p)
  {
    var v := Revalidate(c, fs, p);
    if v.result.Err? then Reply(Err(v.result.error), MaybeEvict(v.next, ev))
    else
      var cached := MaybeEvict(v.next, ev);
      MaybeEvictSameElsewhere(v.next, c, p, ev);
      if p in cached.contents then Reply(Ok(Some(cached.contents[p])), cached)
      else if p !in fs then Reply(Ok(None), Invalidate(cached, p))
      else if fs[p].openFailure.Some? then Reply(Err(fs[p].openFailure.value), cached)
      else match fs[p].body
        case Err(e) => Reply(Err(e), cached)
        case Ok(text) => Reply(Ok(Some(text)), cached.(contents := cached.contents[p := text]))
  }
}

=== FILE: line_cache_facts.dfy ===
/** Properties that relate several cache operations: what the caches
    promise across calls, the invariant they keep, and the two behaviours
    of the code that let a cached entry go unused or unfingerprinted. */
module LineCacheFacts {
  import opened Outcomes
  import opened FileSystem
  import opened LineCache
  import LineSplit

  // ---------------------------------------------------------------------
  // Coherence: whatever the caches hold under a matching fingerprint is
  // what a read from scratch would return.

  ghost predicate CoherentAt(c: Cache, fs: Fs, q: Path) {
    Fresh(c, fs, q) ==>
      && (q in c.lines ==> ColdLines(fs, q) == Ok(c.lines[q]))
      && (q in c.contents ==> ColdContent(fs, q) == Ok(Some(c.contents[q])))
  }

  ghost predicate Coherent(c: Cache, fs: Fs) {
    forall q :: CoherentAt(c, fs, q)
  }

  /** Dropping entries (and never replacing any) keeps a path coherent. */
  lemma CoherentAtWithin(x: Cache, c: Cache, fs: Fs, q: Path)
    requires x.At(q).Within(c.At(q))
    requires CoherentAt(c, fs, q)
    ensures CoherentAt(x, fs, q)
  {
    if Fresh(x, fs, q) {
      assert x.At(q).fingerprint == c.At(q).fingerprint;
      assert Fresh(c, fs, q);
      if q in x.lines {
        assert x.At(q).lines == c.At(q).lines;
      }
      if q in x.contents {
        assert x.At(q).content == c.At(q).content;
      }
    }
  }

  lemma CoherentAtSame(x: Cache, c: Cache, fs: Fs, q: Path)
    requires x.At(q) == c.At(q)
    requires CoherentAt(c, fs, q)
    ensures CoherentAt(x, fs, q)
  {
    CoherentAtWithin(x, c, fs, q);
  }

  lemma EmptyIsCoherent(fs: Fs)
    ensures Coherent(Empty, fs)
  {
  }

  /** The library's evictions keep the caches coherent. */
  lemma EvictKeepsCoherent(c: Cache, fs: Fs, ev: Option<Eviction>)
    requires Coherent(c, fs)
    ensures Coherent(MaybeEvict(c, ev), fs)
  {
    forall q ensures CoherentAt(MaybeEvict(c, ev), fs, q) {
      CoherentAtWithin(MaybeEvict(c, ev), c, fs, q);
    }
  }

  lemma InvalidateKeepsCoherent(c: Cache, fs: Fs, p: Path)
    requires Coherent(c, fs)
    ensures Coherent(Invalidate(c, p), fs)
  {
    var x := Invalidate(c, p);
    forall q ensures CoherentAt(x, fs, q) {
      if q != p {
        CoherentAtSame(x, c, fs, q);
      }
    }
  }

  /** Every read of lines keeps the caches coherent with an unchanged
      filesystem. */
  lemma FetchLinesKeepsCoherent(c: Cache, fs: Fs, p: Path, ev: Option<Eviction>)
    requires Coherent(c, fs)
    ensures Coherent(FetchLines(c, fs, p, ev).next, fs)
  {
    var r := FetchLines(c, fs, p, ev);
    var e := MaybeEvict(c, ev);
    EvictKeepsCoherent(c, fs, ev);
    forall q ensures CoherentAt(r.next, fs, q) {
      if q != p {
        CoherentAtSame(r.next, e, fs, q);
      } else {
        FetchLinesCoherentAt(c, fs, p, ev);
      }
    }
  }

  lemma FetchLinesCoherentAt(c: Cache, fs: Fs, p: Path, ev: Option<Eviction>)
    requires CoherentAt(c, fs, p) && CoherentAt(MaybeEvict(c, ev), fs, p)
    ensures CoherentAt(FetchLines(c, fs, p, ev).next, fs, p)
  {
    var r := FetchLines(c, fs, p, ev);
    if LinesHit(c, fs, p, ev) {
      assert r.next == MaybeEvict(c, ev);
    } else if r.result.Err? {
      CoherentAtWithin(r.next, c, fs, p);
    } else if Fresh(r.next, fs, p) {
      var slot := r.next.At(p);
      assert slot.lines == Some(r.result.value);
      if p in r.next.lines {
        assert r.next.lines[p] == slot.lines.value;
      }
      if p in r.next.contents {
        assert Fresh(c, fs, p);
        assert slot.content == c.At(p).content;
        assert r.next.contents[p] == c.contents[p];
      }
    }
  }

  /** Every read of content keeps the caches coherent with an unchanged
      filesystem. */
  lemma GetContentKeepsCoherent(c: Cache, fs: Fs, p: Path, ev: Option<Eviction>)
    requires Coherent(c, fs)
    ensures Coherent(GetContent(c, fs, p, ev).next, fs)
  {
    var r := GetContent(c, fs, p, ev);
    var e := MaybeEvict(c, ev);
    EvictKeepsCoherent(c, fs, ev);
    forall q ensures CoherentAt(r.next, fs, q) {
      if q != p {
        CoherentAtSame(r.next, e, fs, q);
      } else if ContentHit(c, fs, p, ev) {
        assert r.next == e;
      } else if r.result.Err? {
        CoherentAtWithin(r.next, c, fs, p);
      } else if Fresh(r.next, fs, p) {
        assert r.next.At(p).fingerprint == c.At(p).fingerprint;
        assert Fresh(c, fs, p);
        if p in r.next.lines {
          assert r.next.lines[p] == c.lines[p];
          assert p in c.lines;
          assert CoherentAt(c, fs, p);
        }
        if p in r.next.contents {
          assert r.result.value.Some?;
          assert r.next.At(p).content == r.result.value;
        }
      }
    }
  }

  /** With coherent caches the cache is invisible: every read returns what
      a read from scratch returns, whether or not an eviction fires. */
  lemma CoherentCacheIsTransparent(c: Cache, fs: Fs, p: Path, ev: Option<Eviction>)
    requires Coherent(c, fs)
    ensures FetchLines(c, fs, p, ev).result == ColdLines(fs, p)
    ensures GetContent(c, fs, p, ev).result == ColdContent(fs, p)
  {
    assert CoherentAt(c, fs, p);
  }

  /** A filesystem change that every cached fingerprint notices: wherever
      a cached fingerprint still matches after the change, it matched
      before and the file reads the same. */
  ghost predicate NoticedChange(c: Cache, fs: Fs, fs2: Fs) {
    forall q :: Fresh(c, fs2, q) ==>
      Fresh(c, fs, q) && ColdLines(fs2, q) == ColdLines(fs, q) && ColdContent(fs2, q) == ColdContent(fs, q)
  }

  lemma NoticedChangeKeepsCoherent(c: Cache, fs: Fs, fs2: Fs)
    requires Coherent(c, fs)
    requires NoticedChange(c, fs, fs2)
    ensures Coherent(c, fs2)
  {
    forall q ensures CoherentAt(c, fs2, q) {
      assert CoherentAt(c, fs, q);
    }
  }

  // ---------------------------------------------------------------------
  // Freshness across calls

  /** After a successful load the file is fresh, and the next read of its
      lines is a pure cache hit: same lines, no change to the caches. */
  lemma LoadedFileIsFresh(c: Cache, fs: Fs, p: Path)
    requires p in fs
    requires LoadFileIntoCache(c, fs, p).result.Ok?
    ensures var r := LoadFileIntoCache(c, fs, p);
            && Fresh(r.next, fs, p)
            && FetchLines(r.next, fs, p, None) == r
  {
    var r := LoadFileIntoCache(c, fs, p);
    assert r.next.At(p).fingerprint == Some(StatOf(fs, p).fp);
    assert LinesHit(r.next, fs, p, None);
  }

  lemma InvalidateVacant(c: Cache, p: Path)
    requires c.At(p) == Vacant
    ensures Invalidate(c, p) == c
  {
    assert c.lines - {p} == c.lines;
    assert c.contents - {p} == c.contents;
    assert c.metadata - {p} == c.metadata;
  }

  /** Reading the lines of an unchanged file twice: the second read
      returns the same answer and leaves the caches exactly as the first
      left them. */
  lemma FetchLinesIdempotent(c: Cache, fs: Fs, p: Path)
    requires FetchLines(c, fs, p, None).result.Ok?
    ensures var r := FetchLines(c, fs, p, None);
            FetchLines(r.next, fs, p, None) == r
  {
    var r := FetchLines(c, fs, p, None);
    match StatOf(fs, p)
    case Missing =>
      InvalidateVacant(r.next, p);
      assert Revalidate(r.next, fs, p).next == r.next;
    case Unstattable(_) =>
    case Stamped(fp) =>
      if LinesHit(c, fs, p, None) {
        assert r.next == c;
      } else {
        assert LinesHit(r.next, fs, p, None);
      }
  }

  /** A file rewritten with a different modification time or size is
      read again: the second read returns the new content from scratch,
      whatever the library evicted during either read. */
  lemma RewrittenFileIsReread(c: Cache, fs1: Fs, fs2: Fs, p: Path, ev1: Option<Eviction>, ev2: Option<Eviction>)
    requires FetchLines(c, fs1, p, ev1).result.Ok?
    requires StatOf(fs1, p).Stamped? && StatOf(fs2, p).Stamped?
    requires StatOf(fs1, p).fp != StatOf(fs2, p).fp
    ensures FetchLines(FetchLines(c, fs1, p, ev1).next, fs2, p, ev2).result == ColdLines(fs2, p)
  {
    var r := FetchLines(c, fs1, p, ev1);
    assert r.next.At(p).fingerprint.Some? ==> r.next.At(p).fingerprint == Some(StatOf(fs1, p).fp);
    assert !Fresh(r.next, fs2, p);
  }

  /** Reading a path's lines after `invalidate` on it is a read from
      scratch, and so is reading its content. */
  lemma InvalidateForcesColdRead(c: Cache, fs: Fs, p: Path, ev: Option<Eviction>)
    ensures FetchLines(Invalidate(c, p), fs, p, ev).result == ColdLines(fs, p)
    ensures GetContent(Invalidate(c, p), fs, p, ev).result == ColdContent(fs, p)
  {
    assert !Fresh(Invalidate(c, p), fs, p);
  }

  /** Eviction decides what a read of `q` returns only through what the
      caches hold for `q`. */
  lemma MaybeEvictAt(a: Cache, b: Cache, q: Path, ev: Option<Eviction>)
    requires a.At(q) == b.At(q)
    ensures MaybeEvict(a, ev).At(q) == MaybeEvict(b, ev).At(q)
  {
  }

  /** `invalidate` on one path changes nothing about reads of another. */
  lemma InvalidateSparesOtherPaths(c: Cache, fs: Fs, p: Path, q: Path, ev: Option<Eviction>)
    requires q != p
    ensures FetchLines(Invalidate(c, p), fs, q, ev).result == FetchLines(c, fs, q, ev).result
    ensures GetContent(Invalidate(c, p), fs, q, ev).result == GetContent(c, fs, q, ev).result
  {
    var x := Invalidate(c, p);
    assert x.At(q) == c.At(q);
    MaybeEvictAt(x, c, q, ev);
    assert Fresh(x, fs, q) == Fresh(c, fs, q);
    assert MaybeEvict(x, ev).At(q) == MaybeEvict(c, ev).At(q);
    assert LinesHit(x, fs, q, ev) == LinesHit(c, fs, q, ev);
    assert ContentHit(x, fs, q, ev) == ContentHit(c, fs, q, ev);
  }

  /** After `clear` every read of every path is a read from scratch. */
  lemma ClearForcesColdReads(c: Cache, fs: Fs, p: Path, ev: Option<Eviction>)
    ensures FetchLines(Clear(c), fs, p, ev).result == ColdLines(fs, p)
    ensures GetContent(Clear(c), fs, p, ev).result == ColdContent(fs, p)
  {
    assert Clear(c).At(p) == Vacant;
    assert !Fresh(Clear(c), fs, p);
  }

  // ---------------------------------------------------------------------
  // The content cache depends on a fingerprint recorded by a lines load

  /** Without a fingerprint for `p`, `get_content` never serves the
      cached content: it reads the file, and it records no fingerprint
      either, so the same holds for the next call. */
  lemma ContentAloneIsNeverServed(c: Cache, fs: Fs, p: Path, ev: Option<Eviction>)
    requires p !in c.metadata
    ensures GetContent(c, fs, p, ev).result == ColdContent(fs, p)
    ensures p !in GetContent(c, fs, p, ev).next.metadata
  {
    assert !Fresh(c, fs, p);
  }

  /** So two `get_content` calls in a row, with no lines read between,
      both read the file, even though the first stored the text. */
  lemma RepeatedGetContentRereads(c: Cache, fs: Fs, fs2: Fs, p: Path, ev: Option<Eviction>, ev2: Option<Eviction>)
    requires p !in c.metadata
    ensures var r1 := GetContent(c, fs, p, ev);
            && (r1.result.Ok? && r1.result.value.Some? ==> p in r1.next.contents)
            && GetContent(r1.next, fs2, p, ev2).result == ColdContent(fs2, p)
  {
    ContentAloneIsNeverServed(c, fs, p, ev);
    var r1 := GetContent(c, fs, p, ev);
    if r1.result.Ok? && r1.result.value.Some? {
      assert !ContentHit(c, fs, p, ev);
      assert r1.next.At(p).content == r1.result.value;
    }
    ContentAloneIsNeverServed(r1.next, fs2, p, ev2);
  }

  /** Once a lines read has recorded the fingerprint, the content stored
      by `get_content` is served from the cache, even to a later call that
      finds a different text under the same modification time and size. */
  lemma ContentServedAfterLinesLoad(c: Cache, fs: Fs, fs2: Fs, p: Path)
    requires StatOf(fs, p).Stamped?
    requires FetchLines(c, fs, p, None).result.Ok?
    requires StatOf(fs2, p) == StatOf(fs, p)
    ensures var r1 := FetchLines(c, fs, p, None);
            var r2 := GetContent(r1.next, fs, p, None);
            r2.result.Ok? && r2.result.value.Some? ==>
              GetContent(r2.next, fs2, p, None).result == r2.result
  {
    var r1 := FetchLines(c, fs, p, None);
    if LinesHit(c, fs, p, None) {
      assert r1.next == c;
    }
    assert Fresh(r1.next, fs, p);
    var r2 := GetContent(r1.next, fs, p, None);
    if r2.result.Ok? && r2.result.value.Some? {
      assert Revalidate(r1.next, fs, p) == Reply(Ok(false), r1.next);
      assert r2.next.At(p).fingerprint == r1.next.At(p).fingerprint;
      assert Fresh(r2.next, fs2, p);
      if !ContentHit(r1.next, fs, p, None) {
        assert r2.next.At(p).content == r2.result.value;
      }
      assert ContentHit(r2.next, fs2, p, None);
    }
  }

  // ---------------------------------------------------------------------
  // Lines stored before the fingerprint

  /** A failing `modified()` during a load comes after the lines are
      stored: the load fails, yet the lines stay cached with no
      fingerprint. */
  lemma MtimeFailureLeavesLinesUnfingerprinted(c: Cache, fs: Fs, p: Path)
    requires p in fs && p !in c.metadata
    requires fs[p].openFailure.None? && fs[p].body.Ok?
    requires fs[p].metadata.Ok? && fs[p].metadata.value.modified.Err?
    ensures var r := LoadFileIntoCache(c, fs, p);
            && r.result == Err(fs[p].metadata.value.modified.error)
            && r.next.At(p).lines == Some(LineSplit.SplitLines(fs[p].body.value))
            && r.next.At(p).fingerprint == None
  {
  }

  /** Through the public reads on a filesystem that does not change
      during the call, that state is unreachable: the freshness check has
      already called `modified()` and failed first. Without an eviction, a
      successful read leaves lines cached for `p` only together with a
      fingerprint. */
  lemma ReadsLeaveLinesFingerprinted(c: Cache, fs: Fs, p: Path)
    requires FetchLines(c, fs, p, None).result.Ok?
    ensures var r := FetchLines(c, fs, p, None);
            p in r.next.lines ==> p in r.next.metadata
  {
    var r := FetchLines(c, fs, p, None);
    if LinesHit(c, fs, p, None) {
      assert r.next == c;
      assert Fresh(c, fs, p);
    }
  }

  // ---------------------------------------------------------------------
  // Line numbers and random choices

  /** Line number 0 wraps to the largest `usize` and finds no line, as
      does any number past the last line. */
  lemma GetLineOutOfRange(c: Cache, fs: Fs, p: Path, lineno: Usize, ev: Option<Eviction>)
    requires Valid(c) && ValidFs(fs)
    requires FetchLines(c, fs, p, ev).result.Ok?
    requires lineno == 0 || lineno > |FetchLines(c, fs, p, ev).result.value|
    ensures GetLine(c, fs, p, lineno, ev).result == Ok(None)
  {
  }

  /** Whenever the cached fingerprint does not match, `get_line` on a
      readable file returns the requested line of its split text, whatever
      else the caches hold and whatever the library evicts. */
  lemma ColdGetLine(c: Cache, fs: Fs, p: Path, lineno: Usize, ev: Option<Eviction>)
    requires !Fresh(c, fs, p)
    requires StatOf(fs, p).Stamped? && fs[p].openFailure.None? && fs[p].body.Ok?
    requires 1 <= lineno <= |LineSplit.SplitLines(fs[p].body.value)|
    ensures GetLine(c, fs, p, lineno, ev).result == Ok(Some(LineSplit.SplitLines(fs[p].body.value)[lineno - 1]))
  {
    assert FetchLines(c, fs, p, ev).result == Ok(LineSplit.SplitLines(fs[p].body.value));
  }

  /** `random_line` chooses from exactly the vector the other reads
      fetch: its own cached-hit branch agrees with the shared path. */
  lemma RandomLineChoosesFromFetched(c: Cache, fs: Fs, p: Path, pick: nat, ev: Option<Eviction>)
    ensures var f := FetchLines(c, fs, p, ev);
            RandomLine(c, fs, p, pick, ev).result ==
              (if f.result.Err? then Err(f.result.error) else Ok(Choose(f.result.value, pick)))
  {
  }

  /** Every line of the file is the answer of `random_line` for some
      draw. */
  lemma RandomLineReachesEveryLine(c: Cache, fs: Fs, p: Path, ev: Option<Eviction>, i: nat)
    requires FetchLines(c, fs, p, ev).result.Ok?
    requires i < |FetchLines(c, fs, p, ev).result.value|
    ensures RandomLine(c, fs, p, i, ev).result == Ok(Some(FetchLines(c, fs, p, ev).result.value[i]))
  {
    RandomLineChoosesFromFetched(c, fs, p, i, ev);
  }

  /** Every character of every line is the answer of `random_sign_char`
      for some pair of draws. */
  lemma RandomSignCharReachesEveryChar(c: Cache, fs: Fs, p: Path, ev: Option<Eviction>, i: nat, j: nat)
    requires FetchLines(c, fs, p, ev).result.Ok?
    requires i < |FetchLines(c, fs, p, ev).result.value|
    requires j < |FetchLines(c, fs, p, ev).result.value[i]|
    ensures RandomSignChar(c, fs, p, i, j, ev).result == Ok(Some(FetchLines(c, fs, p, ev).result.value[i][j]))
  {
    RandomLineReachesEveryLine(c, fs, p, ev, i);
  }

  /** The characters `random_sign_char` can return are those of the
      file's lines. */
  lemma RandomSignCharFromFile(c: Cache, fs: Fs, p: Path, i: nat, j: nat, ev: Option<Eviction>)
    requires RandomSignChar(c, fs, p, i, j, ev).result.Ok?
    requires RandomSignChar(c, fs, p, i, j, ev).result.value.Some?
    ensures FetchLines(c, fs, p, ev).result.Ok?
    ensures exists k :: 0 <= k < |FetchLines(c, fs, p, ev).result.value|
              && RandomSignChar(c, fs, p, i, j, ev).result.value.value in FetchLines(c, fs, p, ev).result.value[k]
  {
    RandomLineChoosesFromFetched(c, fs, p, i, ev);
    var lines := FetchLines(c, fs, p, ev).result.value;
    var k := i % |lines|;
    assert RandomLine(c, fs, p, i, ev).result == Ok(Some(lines[k]));
  }
}

=== FILE: line_split.dfy ===
/** The cache's line splitter: Rust's `str::lines` followed by the
    crate's compatibility rule that a non-empty text ending in a line feed
    gets one extra empty line (its source comment attributes the rule to
    Python's `linecache`). */
module LineSplit {

  /** Index of the first line feed in `s`, or `|s|` when there is none. */
  function FirstNewline(s: string): (k: nat)
    ensures k <= |s|
    ensures k < |s| ==> s[k] == '\n'
    ensures '\n' !in s[..k]
  {
    var k := FirstNewlineFrom(s, 0);
    assert forall j :: 0 <= j < k ==> s[..k][j] == s[j];
    k
  }

  /** Index of the first line feed in `s` at or after `from`. */
  function FirstNewlineFrom(s: string, from: nat): (k: nat)
    requires from <= |s|
    ensures from <= k <= |s|
    ensures k < |s| ==> s[k] == '\n'
    ensures forall j :: from <= j < k ==> s[j] != '\n'
    decreases |s| - from
  {
    if from == |s| || s[from] == '\n' then from else FirstNewlineFrom(s, from + 1)
  }

  /** Number of line feeds in `s`. */
  function Newlines(s: string): nat {
    multiset(s)['\n']
  }

  predicate EndsWithNewline(s: string) {
    |s| > 0 && s[|s| - 1] == '\n'
  }

  /** Removes the carriage return of a "\r\n" terminator from a piece whose
      line feed has already been cut off. */
  function StripCr(piece: string): (r: string)
    ensures r <= piece
    ensures |r| + 1 >= |piece|
    ensures |r| < |piece| <==> |piece| > 0 && piece[|piece| - 1] == '\r'
  {
    if |piece| > 0 && piece[|piece| - 1] == '\r' then piece[..|piece| - 1] else piece
  }

  /** Rust's `str::lines`: split after each '\n', drop a final "\n" or
      "\r\n" from each piece, and yield nothing for the empty tail after a
      final '\n'. A '\r' not followed by '\n' is kept. */
  function StrLines(s: string): (r: seq<string>)
    ensures |s| > 0 <==> |r| > 0
    decreases |s|
  {
    if |s| == 0 then []
    else
      var k := FirstNewline(s);
      if k == |s| then [s]
      else [StripCr(s[..k])] + StrLines(s[k + 1..])
  }

  /** The lines the cache stores for a file with text `content`. */
  function SplitLines(content: string): (r: seq<string>)
    ensures |content| == 0 <==> |r| == 0
  {
    StrLines(content) + (if EndsWithNewline(content) && |content| > 0 then [""] else [])
  }

  /** Reference splitter: cut at every line feed and keep everything else,
      including an empty piece after a final line feed. */
  function SplitOn(s: string): (r: seq<string>)
    ensures |r| > 0
    decreases |s|
  {
    var k := FirstNewline(s);
    if k == |s| then [s] else [s[..k]] + SplitOn(s[k + 1..])
  }

  /** No reference piece contains a line feed. */
  lemma {:induction false} SplitOnNoNewline(s: string)
    ensures forall i :: 0 <= i < |SplitOn(s)| ==> '\n' !in SplitOn(s)[i]
    decreases |s|
  {
    var k := FirstNewline(s);
    if k == |s| {
      assert s[..k] == s;
    } else {
      SplitOnCons(s);
      SplitOnNoNewline(s[k + 1..]);
      var ps := SplitOn(s);
      forall i | 0 < i < |ps|
        ensures '\n' !in ps[i]
      {
        assert ps[i] == SplitOn(s[k + 1..])[i - 1];
      }
    }
  }

  /** The reference split has one piece more than the text has line
      feeds. */
  lemma {:induction false} SplitOnCount(s: string)
    ensures |SplitOn(s)| == Newlines(s) + 1
    decreases |s|
  {
    var k := FirstNewline(s);
    if k == |s| {
      assert s[..k] == s;
    } else {
      SplitOnCons(s);
      SplitOnCount(s[k + 1..]);
      NewlinesAfterFirst(s, k);
    }
  }

  /** Cutting at the first line feed removes exactly one line feed. */
  lemma NewlinesAfterFirst(s: string, k: nat)
    requires k < |s| && s[k] == '\n' && '\n' !in s[..k]
    ensures Newlines(s) == Newlines(s[k + 1..]) + 1
  {
    assert s == s[..k] + [s[k]] + s[k + 1..];
    assert multiset(s) == multiset(s[..k]) + multiset{'\n'} + multiset(s[k + 1..]);
  }

  /** Joins lines with a line feed between consecutive ones. */
  function Join(lines: seq<string>): string {
    if |lines| == 0 then ""
    else if |lines| == 1 then lines[0]
    else lines[0] + "\n" + Join(lines[1..])
  }

  /** `FirstNewline` is determined by the position of the first line feed. */
  lemma {:induction false} FirstNewlineAt(s: string, k: nat)
    requires k < |s| && s[k] == '\n'
    requires '\n' !in s[..k]
    ensures FirstNewline(s) == k
    decreases k
  {
    if k > 0 {
      assert s[0] == s[..k][0];
      assert s[1..][..k - 1] == s[..k][1..];
      NotInSuffix(s[..k], 1, '\n');
      FirstNewlineAt(s[1..], k - 1);
    }
  }

  lemma {:induction false} FirstNewlineAbsent(s: string)
    requires '\n' !in s
    ensures FirstNewline(s) == |s|
    decreases |s|
  {
    if |s| > 0 {
      assert s[0] in s;
      NotInSuffix(s, 1, '\n');
      FirstNewlineAbsent(s[1..]);
    }
  }

  /** Joining the reference pieces gives back the text. */
  lemma {:induction false} JoinSplitOn(s: string)
    ensures Join(SplitOn(s)) == s
    decreases |s|
  {
    var k := FirstNewline(s);
    if k < |s| {
      var head, rest := s[..k], s[k + 1..];
      var tail := SplitOn(rest);
      SplitOnCons(s);
      JoinSplitOn(rest);
      JoinCons(head, tail);
      assert s == head + "\n" + rest by {
        assert s == s[..k] + [s[k]] + s[k + 1..];
      }
    }
  }

  /** Unfolds the reference split at the first line feed. */
  lemma SplitOnCons(s: string)
    requires FirstNewline(s) < |s|
    ensures SplitOn(s) == [s[..FirstNewline(s)]] + SplitOn(s[FirstNewline(s) + 1..])
  {
  }

  lemma JoinCons(head: string, tail: seq<string>)
    requires |tail| > 0
    ensures Join([head] + tail) == head + "\n" + Join(tail)
  {
    assert ([head] + tail)[1..] == tail;
  }

  /** Splitting a join of line-feed-free lines gives back the lines. */
  lemma {:induction false} SplitOnJoin(lines: seq<string>)
    requires |lines| > 0
    requires forall i :: 0 <= i < |lines| ==> '\n' !in lines[i]
    ensures SplitOn(Join(lines)) == lines
    decreases |lines|
  {
    if |lines| == 1 {
      FirstNewlineAbsent(lines[0]);
    } else {
      var rest := lines[1..];
      var s := Join(lines);
      assert s == lines[0] + "\n" + Join(rest);
      var k := |lines[0]|;
      assert s[k] == '\n';
      assert s[..k] == lines[0];
      FirstNewlineAt(s, k);
      assert s[k + 1..] == Join(rest);
      SplitOnJoin(rest);
    }
  }

  /** `str::lines` of text that does not end in a line feed is the reference
      split with the carriage return of every "\r\n" removed. */
  lemma {:induction false} StrLinesOpenEnded(s: string)
    requires |s| > 0 && !EndsWithNewline(s)
    ensures |StrLines(s)| == |SplitOn(s)|
    ensures StrLines(s)[|StrLines(s)| - 1] == SplitOn(s)[|SplitOn(s)| - 1]
    ensures forall i :: 0 <= i < |SplitOn(s)| - 1 ==> StrLines(s)[i] == StripCr(SplitOn(s)[i])
    decreases |s|
  {
    var k := FirstNewline(s);
    if k < |s| {
      var rest := s[k + 1..];
      assert |rest| > 0 && rest[|rest| - 1] == s[|s| - 1];
      StrLinesOpenEnded(rest);
      StrLinesCons(s);
      SplitOnCons(s);
      ShiftedPieces(StripCr(s[..k]), s[..k], StrLines(rest), SplitOn(rest), |SplitOn(rest)| - 1);
    }
  }

  /** `str::lines` of text ending in a line feed is the reference split
      without its final empty piece, with carriage returns of "\r\n"
      removed. */
  lemma {:induction false} StrLinesClosed(s: string)
    requires EndsWithNewline(s)
    ensures |StrLines(s)| + 1 == |SplitOn(s)|
    ensures SplitOn(s)[|SplitOn(s)| - 1] == ""
    ensures forall i :: 0 <= i < |StrLines(s)| ==> StrLines(s)[i] == StripCr(SplitOn(s)[i])
    decreases |s|
  {
    var k := FirstNewline(s);
    var rest := s[k + 1..];
    StrLinesCons(s);
    SplitOnCons(s);
    if |rest| == 0 {
      FirstNewlineAbsent(rest);
      assert SplitOn(rest) == [""];
    } else {
      assert rest[|rest| - 1] == s[|s| - 1];
      StrLinesClosed(rest);
      ShiftedPieces(StripCr(s[..k]), s[..k], StrLines(rest), SplitOn(rest), |StrLines(rest)|);
    }
  }

  /** Prepending a stripped piece and its reference piece keeps the first
      `n` stripped pieces in step with the reference ones. */
  lemma ShiftedPieces(a: string, b: string, xs: seq<string>, ys: seq<string>, n: nat)
    requires a == StripCr(b)
    requires n <= |xs| && n <= |ys|
    requires forall i :: 0 <= i < n ==> xs[i] == StripCr(ys[i])
    ensures forall i :: 0 <= i < n + 1 ==> ([a] + xs)[i] == StripCr(([b] + ys)[i])
  {
    forall i | 0 <= i < n + 1
      ensures ([a] + xs)[i] == StripCr(([b] + ys)[i])
    {
      if i > 0 {
        assert ([a] + xs)[i] == xs[i - 1];
        assert ([b] + ys)[i] == ys[i - 1];
      }
    }
  }

  /** The cache's splitter is the reference split with every "\r\n"
      treated as one terminator: same number of lines, same last line, and
      every earlier line loses the carriage return before its line feed. */
  lemma SplitLinesIsSplitOn(s: string)
    requires |s| > 0
    ensures |SplitLines(s)| == |SplitOn(s)|
    ensures SplitLines(s)[|SplitLines(s)| - 1] == SplitOn(s)[|SplitOn(s)| - 1]
    ensures forall i :: 0 <= i < |SplitOn(s)| - 1 ==> SplitLines(s)[i] == StripCr(SplitOn(s)[i])
  {
    if EndsWithNewline(s) {
      StrLinesClosed(s);
    } else {
      StrLinesOpenEnded(s);
    }
  }

  /** Non-empty text has one line more than it has line feeds. */
  lemma SplitLinesCount(s: string)
    requires |s| > 0
    ensures |SplitLines(s)| == Newlines(s) + 1
  {
    SplitLinesIsSplitOn(s);
    SplitOnCount(s);
  }

  /** No stored line contains a line feed. */
  lemma SplitLinesHaveNoNewline(s: string)
    ensures forall i :: 0 <= i < |SplitLines(s)| ==> '\n' !in SplitLines(s)[i]
  {
    if |s| > 0 {
      SplitLinesIsSplitOn(s);
      SplitOnNoNewline(s);
      var r := SplitLines(s);
      var ref := SplitOn(s);
      forall i | 0 <= i < |r|
        ensures '\n' !in r[i]
      {
        assert '\n' !in ref[i];
        if i < |ref| - 1 {
          assert r[i] <= ref[i];
        }
      }
    }
  }

  /** For carriage-return-free text the splitter is exactly the reference
      split, extra trailing empty line included. */
  lemma SplitLinesWithoutCr(s: string)
    requires |s| > 0
    requires '\r' !in s
    ensures SplitLines(s) == SplitOn(s)
  {
    SplitLinesIsSplitOn(s);
    SplitOnAvoids(s, '\r');
    var r, ref := SplitLines(s), SplitOn(s);
    forall i | 0 <= i < |r|
      ensures r[i] == ref[i]
    {
      if i < |ref| - 1 && |ref[i]| > 0 {
        assert ref[i][|ref[i]| - 1] in ref[i];
      }
    }
  }

  /** A character absent from the text is absent from every reference
      piece. */
  lemma {:induction false} SplitOnAvoids(s: string, c: char)
    requires c !in s
    ensures forall i :: 0 <= i < |SplitOn(s)| ==> c !in SplitOn(s)[i]
    decreases |s|
  {
    var k := FirstNewline(s);
    if k == |s| {
      assert s[..k] == s;
    } else {
      SplitOnCons(s);
      NotInSuffix(s, k + 1, c);
      SplitOnAvoids(s[k + 1..], c);
      NotInPrefix(s, k, c);
      var ps := SplitOn(s);
      forall i | 0 < i < |ps|
        ensures c !in ps[i]
      {
        assert ps[i] == SplitOn(s[k + 1..])[i - 1];
      }
    }
  }

  /** Unfolds `str::lines` at the first line feed. */
  lemma StrLinesCons(s: string)
    requires FirstNewline(s) < |s|
    ensures StrLines(s) == [StripCr(s[..FirstNewline(s)])] + StrLines(s[FirstNewline(s) + 1..])
  {
  }

  lemma NotInSuffix(s: string, j: nat, c: char)
    requires j <= |s| && c !in s
    ensures c !in s[j..]
  {
    forall i | 0 <= i < |s| - j
      ensures s[j..][i] != c
    {
      assert s[j..][i] == s[j + i];
    }
  }

  lemma NotInPrefix(s: string, j: nat, c: char)
    requires j <= |s| && c !in s
    ensures c !in s[..j]
  {
    forall i | 0 <= i < j
      ensures s[..j][i] != c
    {
      assert s[..j][i] == s[i];
    }
  }

  /** Rejoining the lines of carriage-return-free text with line feeds
      reproduces the text exactly; the extra empty line restores a final
      line feed. */
  lemma SplitLinesRoundTrip(s: string)
    requires '\r' !in s
    ensures Join(SplitLines(s)) == s
  {
    if |s| > 0 {
      SplitLinesWithoutCr(s);
      JoinSplitOn(s);
    }
  }

  lemma {:induction false} JoinNoCr(lines: seq<string>)
    requires forall i :: 0 <= i < |lines| ==> '\r' !in lines[i]
    ensures '\r' !in Join(lines)
    decreases |lines|
  {
    if |lines| > 1 {
      JoinNoCr(lines[1..]);
      assert Join(lines) == lines[0] + "\n" + Join(lines[1..]);
    }
  }

  /** Splitting the join of terminator-free lines gives back the lines, as
      long as the join is not empty text (which splits to no lines). */
  lemma JoinRoundTrip(lines: seq<string>)
    requires forall i :: 0 <= i < |lines| ==> '\n' !in lines[i] && '\r' !in lines[i]
    requires Join(lines) != ""
    ensures SplitLines(Join(lines)) == lines
  {
    JoinNoCr(lines);
    SplitLinesWithoutCr(Join(lines));
    SplitOnJoin(lines);
  }

  /** There are at most one more lines than characters. */
  lemma SplitLinesBound(s: string)
    ensures |SplitLines(s)| <= |s| + 1
  {
    if |s| > 0 {
      SplitLinesCount(s);
      assert |multiset(s)| == |s|;
      MultisetCountBound(multiset(s), '\n');
    }
  }

  lemma MultisetCountBound(m: multiset<char>, x: char)
    ensures m[x] <= |m|
  {
    if m[x] > 0 {
      var rest := m[x := 0];
      assert m == rest + multiset{}[x := m[x]];
    }
  }

  // The splitter's defining examples.

  lemma ExampleEmpty()
    ensures SplitLines("") == []
  {
  }

  lemma ExampleLoneNewline()
    ensures SplitLines("\n") == ["", ""]
  {
    SplitLinesWithoutCr("\n");
    FirstNewlineAt("\n", 0);
    FirstNewlineAbsent("");
  }

  lemma ExampleTerminated()
    ensures SplitLines("hello\n") == ["hello", ""]
  {
    JoinCons("hello", [""]);
    assert Join(["hello", ""]) == "hello\n";
    JoinRoundTrip(["hello", ""]);
  }

  lemma ExampleUnterminated()
    ensures SplitLines("hello") == ["hello"]
  {
    FirstNewlineAbsent("hello");
  }

  lemma ExampleThreeLines()
    ensures SplitLines("a\nb\nc\n") == ["a", "b", "c", ""]
  {
    JoinCons("c", [""]);
    JoinCons("b", ["c", ""]);
    JoinCons("a", ["b", "c", ""]);
    assert Join(["a", "b", "c", ""]) == "a\nb\nc\n";
    JoinRoundTrip(["a", "b", "c", ""]);
  }

  /** A carriage return before a line feed is part of the terminator. */
  lemma ExampleCrLf()
    ensures SplitLines("a\r\nb") == ["a", "b"]
  {
    var s := "a\r\nb";
    FirstNewlineAt(s, 2);
    assert s[..2] == "a\r";
    assert StripCr("a\r") == "a";
    assert s[3..] == "b";
    FirstNewlineAbsent("b");
    assert StrLines(s) == ["a"] + StrLines("b");
  }
}

=== FILE: outcomes.dfy ===
/** Small failure-carrying datatypes and the machine integer limits
    shared by the whole model. */
module Outcomes {

  const U32_MAX: nat := 0xFFFF_FFFF
  const U64_MAX: nat := 0xFFFF_FFFF_FFFF_FFFF

  /** `usize::MAX` on a 64-bit target. */
  const USIZE_MAX: nat := U64_MAX

  /** `isize::MAX`, which bounds the byte length (and so the character
      count) of any Rust `String`. */
  const ISIZE_MAX: nat := 0x7FFF_FFFF_FFFF_FFFF

  /** A value that may be absent; Rust's `Option`. */
  datatype Option<+T> = None | Some(value: T)

  /** An I/O failure of any kind other than "not found". The cache never
      inspects it beyond passing it on, so only its identity matters. */
  datatype IoError = IoError(kind: nat)

  /** Rust's `std::io::Result`: a value or an I/O error. */
  datatype IoResult<+T> = Ok(value: T) | Err(error: IoError)
}

=== FILE: weights.dfy ===
/** How the two byte-budgeted caches charge their entries, and how the
    budget is derived from the probed physical memory. */
module Weights {
  import opened Outcomes

  /** Conservative per-entry charge for object headers and alignment. */
  const ENTRY_OVERHEAD: nat := 128

  /** Smallest total memory the cache ever assumes: 1 GiB. */
  const MEMORY_FLOOR: nat := 1024 * 1024 * 1024

  function Sum(xs: seq<nat>): nat {
    if |xs| == 0 then 0 else xs[0] + Sum(xs[1..])
  }

  /** `(x as u64).min(u32::MAX as u64) as u32`. */
  function Saturate(x: nat): (r: nat)
    ensures r <= U32_MAX && r <= x
    ensures r < x ==> r == U32_MAX
  {
    if x < U32_MAX then x else U32_MAX
  }

  /** Weight of a lines entry: the vector's buffer (its capacity times
      `stringSize`, the size of one `String` header), the capacity of every
      line's buffer, and the fixed overhead, clamped to the `u32` range.
      Capacities rather than lengths are charged. */
  function LinesWeight(stringSize: nat, vecCapacity: nat, lineCapacities: seq<nat>): (w: nat)
    ensures ENTRY_OVERHEAD <= w <= U32_MAX
  {
    Saturate(vecCapacity * stringSize + Sum(lineCapacities) + ENTRY_OVERHEAD)
  }

  /** Weight of a content entry: its buffer capacity plus the overhead,
      clamped to the `u32` range. */
  function ContentWeight(capacity: nat): (w: nat)
    ensures ENTRY_OVERHEAD <= w <= U32_MAX
  {
    Saturate(capacity + ENTRY_OVERHEAD)
  }

  /** The probed physical memory with the 1 GiB floor applied. */
  function TotalMemory(probed: nat): (m: nat)
    requires probed <= U64_MAX
    ensures MEMORY_FLOOR <= m <= U64_MAX
    ensures probed <= m
    ensures m == probed || m == MEMORY_FLOOR
  {
    if probed < MEMORY_FLOOR then MEMORY_FLOOR else probed
  }

  /** Each of the two weighed caches gets half of the total limit, rounded
      down. */
  function PerCacheLimit(totalLimit: nat): (limit: nat)
    ensures limit + limit <= totalLimit <= limit + limit + 1
  {
    totalLimit / 2
  }

  lemma {:induction false} SumMonotone(a: seq<nat>, b: seq<nat>)
    requires |a| == |b|
    requires forall i :: 0 <= i < |a| ==> a[i] <= b[i]
    ensures Sum(a) <= Sum(b)
    decreases |a|
  {
    if |a| > 0 {
      assert a[0] <= b[0];
      SumMonotone(a[1..], b[1..]);
    }
  }

  lemma {:induction false} SumAppend(a: seq<nat>, x: nat)
    ensures Sum(a + [x]) == Sum(a) + x
    decreases |a|
  {
    if |a| > 0 {
      assert (a + [x])[1..] == a[1..] + [x];
      SumAppend(a[1..], x);
    }
  }

  lemma SaturateMonotone(x: nat, y: nat)
    requires x <= y
    ensures Saturate(x) <= Saturate(y)
  {
  }

  /** The lines weight never decreases when the vector or any line buffer
      grows. */
  lemma LinesWeightMonotone(stringSize: nat, vec1: nat, vec2: nat, caps1: seq<nat>, caps2: seq<nat>)
    requires vec1 <= vec2
    requires |caps1| == |caps2|
    requires forall i :: 0 <= i < |caps1| ==> caps1[i] <= caps2[i]
    ensures LinesWeight(stringSize, vec1, caps1) <= LinesWeight(stringSize, vec2, caps2)
  {
    SumMonotone(caps1, caps2);
    assert vec1 * stringSize <= vec2 * stringSize by {
      MulMonotone(vec1, vec2, stringSize);
    }
  }

  lemma MulMonotone(a: nat, b: nat, c: nat)
    requires a <= b
    ensures a * c <= b * c
  {
  }

  /** Storing one more line never makes an entry lighter. */
  lemma LinesWeightGrowsWithLines(stringSize: nat, vecCapacity: nat, caps: seq<nat>, extra: nat)
    ensures LinesWeight(stringSize, vecCapacity, caps) <= LinesWeight(stringSize, vecCapacity, caps + [extra])
  {
    SumAppend(caps, extra);
  }

  /** Below the clamp the lines weight charges every byte of capacity: one
      more byte in any line buffer costs exactly one more unit. */
  lemma LinesWeightChargesEveryByte(stringSize: nat, vecCapacity: nat, caps: seq<nat>, extra: nat)
    requires vecCapacity * stringSize + Sum(caps) + extra + ENTRY_OVERHEAD < U32_MAX
    ensures LinesWeight(stringSize, vecCapacity, caps + [extra])
         == LinesWeight(stringSize, vecCapacity, caps) + extra
  {
    SumAppend(caps, extra);
  }

  lemma ContentWeightMonotone(cap1: nat, cap2: nat)
    requires cap1 <= cap2
    ensures ContentWeight(cap1) <= ContentWeight(cap2)
  {
  }

  /** An empty content string weighs exactly the overhead, and a content
      entry saturates only once its capacity reaches `u32::MAX - 128`. */
  lemma ContentWeightSaturation(cap: nat)
    ensures ContentWeight(cap) == U32_MAX <==> cap + ENTRY_OVERHEAD >= U32_MAX
    ensures ContentWeight(0) == ENTRY_OVERHEAD
  {
  }
}
